=== FILE: README.md ===
# Users controller: a Dafny model

This project models the decision logic of the users resource of a small ASP.NET Core web
API (`UsersController` and the DTOs in `Models/UserDto.cs`). Each action becomes a pure
function of its inputs and of the repository's contents. The repository is a
`map<Guid, User>`. Each action returns a `Reply` that holds the status, the body and the
repository's contents afterwards. The model covers five parts:

- **field validation**: the `[Required]` and `[RegularExpression("^[0-9\p{L}]*$")]`
  attributes on `Login`, the `[DefaultValue]` names of `CreateUserDto`, and the non-blank
  name checks of a full replacement;
- **PATCH pre-validation**: operations are scanned in order and the first failing one
  decides the error. After the patch is applied, only the DTO's attributes are
  re-validated;
- **the actions**: GET and HEAD by id, POST, PUT with its fallback to creation, PATCH and
  DELETE. Their check order, status codes and effect on the repository are stated;
- **the list action**: page and size are clamped, the page count is a ceiling division,
  and the previous/next links are taken from the repository's flags.

Modules:

| module | file | models |
|---|---|---|
| `Base` | base.dfy | `Option` (a nullable reference) and `Result` |
| `Unicode` | unicode.dfy | the .NET character and string helpers. The Unicode tables are a `CharClasses` parameter. Its `Wellformed` condition fixes their ASCII behaviour, including upper-casing, and says white space is neither letter nor digit. |
| `UserDtos` | user_dto.dfy | `CreateUserDto`, `UpdateUserDto`, JSON binding with defaults, the login attributes, ModelState entries |
| `Domain` | domain.dfy | `Guid`, the stored `User`, the repository map, and the object-mapper copies |
| `JsonPatch` | json_patch.dfy | patch operations, path-to-field dispatch, `ApplyTo` as an in-order fold (last write wins) |
| `UsersController` | users_controller.dfy | the actions, `ValidateUserDto`, `ValidatePatchDocument`, `IsAlphaNum` |
| `Pagination` | pagination.dfy | `GetUsers` and the `X-Pagination` header |
| `ControllerLaws` | controller_laws.dfy | laws that relate the actions to each other and to the stored state |

Behaviour of the code that is easy to misread, and that the model follows:

- `hasPrevious` is the repository's `HasPrevious` flag. It is never derived from the
  page number.
- On create, the extra error with key `login` and message `Error` is added only for a
  null or empty login, after the attribute errors. Any other login that breaks the
  rule yields only attribute errors under the key `Login`: the pattern error alone for a
  non-blank login, the required and pattern errors for a white-space-only one.
- Patch pre-validation checks logins with `char.IsLetterOrDigit`, which also accepts
  digits of other scripts. Such a login passes pre-validation. The attribute pattern then
  rejects it after the patch is applied (`ControllerLaws.NonAsciiDigitFailsOnlyAfterApply`).
- When PUT falls back to creation, the mapper copies the DTO's fields. No defaults are
  filled in, and the names were already checked to be non-blank. The new record gets the
  id the repository assigns (`freshId`), not the id in the URL.

## Model

| member | source | states |
|---|---|---|
| `Unicode.Trim` | WebApi.MinimalApi/Controllers/UsersController.cs:188 | `Trim('/')` yields a middle slice of the path. Everything cut from either end is `/`, and the result neither starts nor ends with `/`. |
| `UserDtos.CreateDefaults` | WebApi.MinimalApi/Models/UserDto.cs:22-26 | An absent firstName binds to "Biba" and an absent lastName to "Abobov". A present string is kept. The login is non-null only when it is given as a string. |
| `UserDtos.CreateBindRoundTrip` | WebApi.MinimalApi/Program.cs:29-33 | Populate-style binding reads a serialised `CreateUserDto` back unchanged. Defaults never override a present member. |
| `UserDtos.LoginAttributeErrors` | WebApi.MinimalApi/Models/UserDto.cs:17-20 | `[Required]` plus the pattern report no error iff the login is non-null, non-empty, and every character is an ASCII digit or a letter. Every error is filed under `Login`. A null or empty login yields exactly the required-field error, because the pattern accepts "". A non-blank login that breaks the rule yields exactly the pattern error. A non-empty white-space-only login yields the required-field error followed by the pattern error. |
| `UserDtos.CreateUserDtoErrors` | WebApi.MinimalApi/Models/UserDto.cs:15-27 | A `CreateUserDto` is attribute-valid iff its login satisfies the login rule. |
| `UserDtos.UpdateUserDtoErrors` | WebApi.MinimalApi/Models/UserDto.cs:29-37 | An `UpdateUserDto` is attribute-valid iff its login satisfies the login rule. |
| `UserDtos.UpdateValidationIgnoresNames` | WebApi.MinimalApi/Models/UserDto.cs:29-37 | Two `UpdateUserDto`s with the same login get the same attribute errors, whatever their names. |
| `Domain.UpdateMapLaws` | WebApi.MinimalApi/Program.cs:42-43 | Mapping an `UpdateUserDto` onto a record and back returns the DTO. The record's games count and current game are kept. Mapping a record onto itself, or the same DTO twice, changes nothing. |
| `Domain.CreateFromUpdateKeepsFields` | WebApi.MinimalApi/Program.cs:41-44 | A record created through `UpdateUserDto -> CreateUserDto -> UserEntity` carries the DTO's login and names. |
| `JsonPatch.TargetField` | WebApi.MinimalApi/Controllers/UsersController.cs:186-218 | A path designates a field only when its slash-trimmed form equals that field's name, ignoring case. A null path designates none. |
| `JsonPatch.ApplyOperation` | WebApi.MinimalApi/Controllers/UsersController.cs:105 | Applying one operation logs at most one error. An add or replace on a field logs none. |
| `JsonPatch.ApplyTo` | WebApi.MinimalApi/Controllers/UsersController.cs:105 | Applying a document logs at most one error per operation. |
| `JsonPatch.LastWriteWins` | WebApi.MinimalApi/Controllers/UsersController.cs:105 | For a document of field writes, no error is logged. Each field ends with its last written value, or keeps its old value when nothing writes it. |
| `JsonPatch.ApplyFieldWritesIdempotent` | WebApi.MinimalApi/Controllers/UsersController.cs:105 | Applying a document of field writes to its own result changes nothing. |
| `UsersController.GetUserById` | WebApi.MinimalApi/Controllers/UsersController.cs:27-35 | 200 iff the id is stored, with the body the stored record mapped to a `UserDto` under that id. Otherwise 404 with no body. The repository is unchanged. |
| `UsersController.HeadUser` | WebApi.MinimalApi/Controllers/UsersController.cs:37-43 | 200 iff the id is stored, 404 iff it is not. The body is empty either way. |
| `ControllerLaws.HeadMatchesGet` | WebApi.MinimalApi/Controllers/UsersController.cs:27-43 | HEAD answers with the status GET would for the same id, and neither changes the repository. |
| `UsersController.CreateUser` | WebApi.MinimalApi/Controllers/UsersController.cs:47-66 | 400 iff the body is null, with no body. 201 iff there is a body, its login is non-empty and ModelState is valid; otherwise 422. A null or empty login answers with ModelState followed by `("login", "Error")`, any other 422 with ModelState alone. It inserts exactly one record under the new id (one the repository does not hold yet), so the repository grows by one. It leaves the others alone and returns that id. Every failure leaves the repository unchanged. |
| `UsersController.Post` | WebApi.MinimalApi/Controllers/UsersController.cs:47-66 | A null body gives 400 with no body. Otherwise 201 iff the login rule holds, else 422. A null or empty login answers with the required-field error followed by `("login", "Error")`. Any other login that breaks the rule answers with its attribute errors alone. The stored login is valid and the games count is 0. Failures do not touch the repository. |
| `UsersController.ValidateUserDto` | WebApi.MinimalApi/Controllers/UsersController.cs:165-182 | Passes iff ModelState is valid and both names are non-blank. An invalid ModelState is returned as is. Otherwise exactly one name error is reported, for the first name when it is blank. |
| `UsersController.UpdateUser` | WebApi.MinimalApi/Controllers/UsersController.cs:68-87 | Never 404. 422 iff the body is invalid, whatever the id, and it carries what `ValidateUserDto` reports: the attribute errors, else the first-name error, else the last-name error. 400 iff the body is null, or it is valid and the id is malformed; a 400 has no body. 201 iff valid and the id is absent. 204 iff valid and the id is present, with no body: the three fields are overwritten, the other fields and records are kept. Failures leave the repository unchanged. |
| `UsersController.IsAlphaNum` | WebApi.MinimalApi/Controllers/UsersController.cs:224-229 | True iff every character is a letter or a digit of any script. |
| `UsersController.PatternImpliesAlphaNum` | WebApi.MinimalApi/Models/UserDto.cs:17-20 | Every string the login pattern accepts is accepted by `IsAlphaNum`. |
| `UsersController.CheckLoginValue` | WebApi.MinimalApi/Controllers/UsersController.cs:189-202 | A null or blank login value gets "cannot be empty". Otherwise a value with a non-letter, non-digit character gets "special characters". Anything else passes. |
| `UsersController.CheckOperation` | WebApi.MinimalApi/Controllers/UsersController.cs:186-218 | Operations on other paths pass. An error is filed under the targeted field's name. Login values follow `CheckLoginValue`. A name value fails iff it is null or blank, with "First name cannot be empty." or "Last name cannot be empty.". |
| `UsersController.ValidatePatchDocument` | WebApi.MinimalApi/Controllers/UsersController.cs:184-222 | No error iff every operation passes. Otherwise the error is that of an operation all of whose predecessors pass, i.e. the first failing one. |
| `UsersController.PartiallyUpdateUser` | WebApi.MinimalApi/Controllers/UsersController.cs:89-114 | A null document gives 400. A malformed or absent id gives 404, even when the document is invalid. Neither carries a body, and nor does a 204. A found record with a failing document gives 422 with that single error. Otherwise the document is applied: 204 iff applying logged no error and the patched login satisfies the login rule, and the record then holds the patched login and names. Else 422 with the applying errors followed by the attribute errors. On 204 the games count, current game and other records are kept. Every failure leaves the repository unchanged. |
| `UsersController.DeleteUser` | WebApi.MinimalApi/Controllers/UsersController.cs:116-125 | 204 iff the id parses and is stored; the record is removed and nothing else changes. Otherwise 404 and the repository is unchanged. |
| `Pagination.NormalizePageNumber` | WebApi.MinimalApi/Controllers/UsersController.cs:130 | The page number is at least 1. A page of 1 or more is kept, and anything below becomes 1. |
| `Pagination.ClampPageSize` | WebApi.MinimalApi/Controllers/UsersController.cs:131 | The size is in [1, 20]. In-range sizes are kept, smaller ones become 1 and larger ones 20. |
| `Pagination.CeilDiv` | WebApi.MinimalApi/Controllers/UsersController.cs:150 | The result is the ceiling of the count over the size: `(q - 1) * size < count <= q * size`. |
| `Pagination.MapUsers` | WebApi.MinimalApi/Controllers/UsersController.cs:134 | Each page item maps to its `UserDto`, in order. |
| `Pagination.BuildHeader` | WebApi.MinimalApi/Controllers/UsersController.cs:136-151 | Each link exists iff the repository's flag is set. The links carry page ∓ 1 and the same size. Count, size, current page and page count are always present. |
| `Pagination.GetUsers` | WebApi.MinimalApi/Controllers/UsersController.cs:127-155 | Defaults are 1 and 10. A given page number reads as `NormalizePageNumber` of it and a given size as `ClampPageSize` of it, so page ≥ 1 and 1 ≤ size ≤ 20. The repository is asked for that page. The header reports its count, `ceil(count / size)` pages and links exactly as its flags say. |
| `Pagination.OutOfRangeRequestExample` | WebApi.MinimalApi/Controllers/UsersController.cs:128-151 | Page 0 and size 999 over 25 records read page 1, size 20, 2 pages. |
| `ControllerLaws.UpsertIsCreate` | WebApi.MinimalApi/Controllers/UsersController.cs:79-81 | A valid PUT to a well-formed id that is not stored answers exactly as POST of the mapped DTO does, which is 201. |
| `ControllerLaws.PostPreservesValidLogins` | WebApi.MinimalApi/Controllers/UsersController.cs:51-60 | If every stored login satisfies the login rule before a POST, it still does after. |
| `ControllerLaws.UpdatePreservesValidLogins` | WebApi.MinimalApi/Controllers/UsersController.cs:72-86 | If every stored login satisfies the login rule before a PUT, it still does after. |
| `ControllerLaws.PatchPreservesValidLogins` | WebApi.MinimalApi/Controllers/UsersController.cs:105-111 | If every stored login satisfies the login rule before a PATCH, it still does after. |
| `ControllerLaws.DeletePreservesValidLogins` | WebApi.MinimalApi/Controllers/UsersController.cs:119-124 | If every stored login satisfies the login rule before a DELETE, it still does after. |
| `ControllerLaws.PreValidationReadsPathAndValueOnly` | WebApi.MinimalApi/Controllers/UsersController.cs:184-222 | Two documents whose operations agree on path and value get the same pre-validation outcome, whatever the operation types. |
| `ControllerLaws.ValidLoginPassesPreValidation` | WebApi.MinimalApi/Controllers/UsersController.cs:186-202 | A login operation whose value satisfies the login rule passes pre-validation. |
| `ControllerLaws.FieldWritePatchOutcome` | WebApi.MinimalApi/Controllers/UsersController.cs:100-113 | For a document of field writes on a found record that passes pre-validation: 204 iff the login left by the last login write (or the old login) satisfies the login rule. Then each stored field holds its last written value, or its old value. |
| `ControllerLaws.PatchIsIdempotent` | WebApi.MinimalApi/Controllers/UsersController.cs:93-113 | Resending a successful PATCH of field writes to the repository it produced gives the same reply and repository. |
| `ControllerLaws.LoginOnlyPatchIgnoresNames` | WebApi.MinimalApi/Controllers/UsersController.cs:102-113 | A PATCH that only writes valid logins to a stored record gives 204, even when the stored names are blank or null. |
| `ControllerLaws.NonAsciiDigitLogin` | WebApi.MinimalApi/Controllers/UsersController.cs:224-229 | A login made of one non-ASCII digit passes `IsAlphaNum` and the login pre-check, but gets the pattern error from the attributes. |
| `ControllerLaws.NonAsciiDigitFailsOnlyAfterApply` | WebApi.MinimalApi/Controllers/UsersController.cs:102-108 | Replacing the login with such a value passes pre-validation. The PATCH then answers 422 with only the pattern error, and the repository is unchanged. |
| `ControllerLaws.PostWithDefaultsExample` | WebApi.MinimalApi/Controllers/UsersController.cs:59-65 | POST `{"login":"abc123"}` gives 201 with the new id. The record is named "Biba Abobov". |
| `ControllerLaws.PutWithoutNamesExample` | WebApi.MinimalApi/Controllers/UsersController.cs:72-75 | PUT `{"login":"abc123"}` binds the names to null, since `UpdateUserDto` has no defaults. It gives 422 with the first-name error, and the repository is unchanged. |
| `ControllerLaws.SlashLoginTargetsLogin` | WebApi.MinimalApi/Controllers/UsersController.cs:188-189 | The path "/login" designates the login field. |
| `ControllerLaws.UpperCaseLoginPath` | WebApi.MinimalApi/Controllers/UsersController.cs:188-189 | The path "/LOGIN" designates the login field: paths are compared ignoring case. |
| `ControllerLaws.MixedCaseFirstNamePath` | WebApi.MinimalApi/Controllers/UsersController.cs:203 | The path "FirstName" designates the first-name field. |
| `ControllerLaws.SpecialCharacterRejected` | WebApi.MinimalApi/Controllers/UsersController.cs:197-201 | Replacing the login with "a!b" fails pre-validation with "special characters". |
| `ControllerLaws.PatchSpecialCharacterExample` | WebApi.MinimalApi/Controllers/UsersController.cs:102-103 | PATCH replacing the login with "a!b" on a stored record gives 422 with that single error, and the record is unchanged. |
| `ControllerLaws.MalformedIdAsymmetry` | WebApi.MinimalApi/Controllers/UsersController.cs:77-119 | A malformed id gives 404 to DELETE and PATCH but 400 to a valid PUT. |

## Left out

- Hosting, routing, output formatters and content negotiation (Program.cs) are not modelled. Only the `Populate` default handling and the mapper profiles appear, as the binding and mapping functions.
- The OPTIONS action only sets a constant `Allow` header.
- Serialisation of the `X-Pagination` header is not modelled. The header is a record, and a link is the `(pageNumber, pageSize)` pair it would encode, because `LinkGenerator` is outside the controller.
- `IUserRepository` and `InMemoryUserRepository` are not part of this model. The repository is a map. The id `Insert` assigns is the input `freshId`, required to be an id the repository does not hold yet. `GetPage` is a function input whose count and flags are taken as given.
- `Guid.TryParse` is an input function (`Runtime.tryParseGuid`). GET and HEAD bind a `Guid` directly, so a token that does not parse (which the framework binds to `Guid.Empty`) is not modelled.
- The Unicode tables (`char.IsLetter`, `char.IsDigit`, `char.IsWhiteSpace`, upper-case mapping) are abstract beyond ASCII. Characters stand for UTF-16 code units, so surrogate pairs are not modelled.
- Model binding errors other than a null or unreadable body are not modelled. ModelState starts out holding only the DTO's attribute errors. Message texts are those of the attributes and the controller, and keys are kept as given.
- The patch library's own behaviour is an input function (`Runtime.applyOther`) that may fail. It covers remove, move, copy, test, and unknown paths. Only add and replace on `login`, `firstName` and `lastName` are modelled, and they use the controller's path normalisation.
- Patch operands are their `ToString()` rendering. An add or replace on a field stores that string. The patch library's failure to convert a JSON object or array operand to `string` is not modelled, so such an operand that passes pre-validation gives 204 in the model and 422 in the program.
- `Math.Ceiling` over a `double` is replaced by exact integer ceiling division. The two agree for every count an `int` can hold.
- 32-bit overflow of `pageNumber + 1` at `int.MaxValue` is not modelled; integers are unbounded.
- PatchIsIdempotent: stated only for documents whose operations are all adds or replaces on the three fields, because what the patch library does with other operations is not modelled.

=== FILE: base.dfy ===
/** Failure-compatible wrappers shared by the whole model: `Option` stands for a
    nullable C# reference, `Result` for a step that may fail with an error value. */
module Base {

  datatype Option<+T> = None | Some(value: T)

  datatype Result<+T, +E> = Success(value: T) | Failure(error: E)
}

=== FILE: controller_laws.dfy ===
/** Laws relating the controller's actions to each other and to the stored state. */
module ControllerLaws {
  import opened Base
  import opened Unicode
  import opened UserDtos
  import opened Domain
  import opened JsonPatch
  import opened UsersController

  /** Every stored login satisfies the login rule. */
  ghost predicate LoginsValid(cc: CharClasses, store: Store) {
    forall id :: id in store ==> ValidLogin(cc, store[id].login)
  }

  /** PUT to a well-formed id that is not stored answers exactly as POST of the DTO
      mapped to a CreateUserDto: a creation, never a 404. */
  lemma UpsertIsCreate(rt: Runtime, dto: UpdateUserDto, userId: string, store: Store, freshId: Guid)
    requires Wellformed(rt.chars)
    requires ValidReplacement(rt.chars, dto)
    requires rt.tryParseGuid(userId).Some? && rt.tryParseGuid(userId).value !in store
    requires freshId !in store
    ensures UpdateUser(rt, Some(dto), userId, store, freshId) == Post(rt.chars, Some(ToCreateUserDto(dto)), store, freshId)
    ensures UpdateUser(rt, Some(dto), userId, store, freshId).status == Created
  {
  }

  /** HEAD answers with the status GET would, without the body. */
  lemma HeadMatchesGet(id: Guid, store: Store)
    ensures HeadUser(id, store).status == GetUserById(id, store).status
    ensures HeadUser(id, store).store == GetUserById(id, store).store
  {
  }

  /** A POST stores only a record whose login satisfies the login rule. */
  lemma PostPreservesValidLogins(cc: CharClasses, dto: Option<CreateUserDto>, store: Store, freshId: Guid)
    requires Wellformed(cc)
    requires LoginsValid(cc, store)
    requires freshId !in store
    ensures LoginsValid(cc, Post(cc, dto, store, freshId).store)
  {
  }

  /** A PUT stores only a record whose login satisfies the login rule. */
  lemma UpdatePreservesValidLogins(rt: Runtime, dto: Option<UpdateUserDto>, userId: string, store: Store, freshId: Guid)
    requires Wellformed(rt.chars)
    requires LoginsValid(rt.chars, store)
    requires freshId !in store
    ensures LoginsValid(rt.chars, UpdateUser(rt, dto, userId, store, freshId).store)
  {
  }

  /** A PATCH stores only a record whose login satisfies the login rule. */
  lemma PatchPreservesValidLogins(rt: Runtime, patchDoc: Option<seq<Operation>>, userId: string, store: Store)
    requires Wellformed(rt.chars)
    requires LoginsValid(rt.chars, store)
    ensures LoginsValid(rt.chars, PartiallyUpdateUser(rt, patchDoc, userId, store).store)
  {
  }

  /** A DELETE only removes records. */
  lemma DeletePreservesValidLogins(rt: Runtime, userId: string, store: Store)
    requires LoginsValid(rt.chars, store)
    ensures LoginsValid(rt.chars, DeleteUser(rt, userId, store).store)
  {
  }

  /** Pre-validation looks at each operation's path and value only: neither its type nor
      its `from` operand affects the outcome. */
  lemma {:induction false} PreValidationReadsPathAndValueOnly(cc: CharClasses, ops: seq<Operation>, others: seq<Operation>)
    requires |ops| == |others|
    requires forall i :: 0 <= i < |ops| ==> ops[i].path == others[i].path && ops[i].value == others[i].value
    ensures ValidatePatchDocument(cc, ops) == ValidatePatchDocument(cc, others)
    decreases |ops|
  {
    if ops != [] {
      assert CheckOperation(cc, ops[0]) == CheckOperation(cc, others[0]);
      PreValidationReadsPathAndValueOnly(cc, ops[1..], others[1..]);
    }
  }

  /** A login value with a valid pattern passes pre-validation. */
  lemma ValidLoginPassesPreValidation(cc: CharClasses, o: Operation)
    requires Wellformed(cc)
    requires TargetField(cc, o.path) == Some(Login)
    requires ValidLogin(cc, o.value)
    ensures CheckOperation(cc, o).None?
  {
    PatternImpliesAlphaNum(cc, o.value.value);
    assert !cc.isWhiteSpace(o.value.value[0]) by {
      assert InLoginClass(cc, o.value.value[0]);
    }
  }

  /** A PATCH of field writes on a found record that passes pre-validation: it succeeds
      iff the login it leaves satisfies the login rule, and then every stored field holds
      its last written value, or its old value when nothing writes it. */
  lemma FieldWritePatchOutcome(rt: Runtime, ops: seq<Operation>, userId: string, store: Store, f: Field)
    requires Wellformed(rt.chars)
    requires forall i :: 0 <= i < |ops| ==> IsFieldWrite(rt.chars, ops[i])
    requires rt.tryParseGuid(userId).Some? && rt.tryParseGuid(userId).value in store
    requires ValidatePatchDocument(rt.chars, ops).None?
    ensures var id := rt.tryParseGuid(userId).value;
            var before := ToUpdateUserDto(store[id]);
            var r := PartiallyUpdateUser(rt, Some(ops), userId, store);
            var login := match LastWrite(rt.chars, ops, Login) case Some(v) => v case None => before.login;
            && (r.status == NoContent <==> ValidLogin(rt.chars, login))
            && (r.status == NoContent ==>
                  Get(ToUpdateUserDto(r.store[id]), f)
                    == match LastWrite(rt.chars, ops, f) case Some(v) => v case None => Get(before, f))
  {
    var id := rt.tryParseGuid(userId).value;
    var before := ToUpdateUserDto(store[id]);
    LastWriteWins(rt.chars, rt.applyOther, before, ops, Login);
    LastWriteWins(rt.chars, rt.applyOther, before, ops, f);
    var applied := ApplyTo(rt.chars, rt.applyOther, before, ops);
    assert applied.errors == [];
    PartiallyUpdateUserUnfold(rt, ops, userId, store);
    UpdateMapLaws(applied.dto, store[id]);
  }

  /** A successful PATCH made only of field writes, sent again, succeeds and changes nothing. */
  lemma PatchIsIdempotent(rt: Runtime, ops: seq<Operation>, userId: string, store: Store)
    requires Wellformed(rt.chars)
    requires forall i :: 0 <= i < |ops| ==> IsFieldWrite(rt.chars, ops[i])
    requires PartiallyUpdateUser(rt, Some(ops), userId, store).status == NoContent
    ensures var first := PartiallyUpdateUser(rt, Some(ops), userId, store);
            PartiallyUpdateUser(rt, Some(ops), userId, first.store) == first
  {
    var first := PartiallyUpdateUser(rt, Some(ops), userId, store);
    var id := rt.tryParseGuid(userId).value;
    var applied := ApplyTo(rt.chars, rt.applyOther, ToUpdateUserDto(store[id]), ops);
    PartiallyUpdateUserUnfold(rt, ops, userId, store);
    assert applied.errors + UpdateUserDtoErrors(rt.chars, applied.dto) == [];
    assert UpdateUserDtoErrors(rt.chars, applied.dto) == [];
    var patched := UpdateUserFrom(applied.dto, store[id]);
    assert first.store == store[id := patched];
    UpdateMapLaws(applied.dto, store[id]);
    ApplyFieldWritesIdempotent(rt.chars, rt.applyOther, ToUpdateUserDto(store[id]), ops);
    assert ApplyTo(rt.chars, rt.applyOther, ToUpdateUserDto(first.store[id]), ops) == Applied(applied.dto, []);
    PartiallyUpdateUserUnfold(rt, ops, userId, first.store);
    assert first.store[id := UpdateUserFrom(applied.dto, first.store[id])] == first.store;
  }

  /** A PATCH that only writes valid logins succeeds whatever the stored first and last
      names are, blank or null included: only the login is validated after applying it. */
  lemma LoginOnlyPatchIgnoresNames(rt: Runtime, ops: seq<Operation>, userId: string, store: Store)
    requires Wellformed(rt.chars)
    requires rt.tryParseGuid(userId).Some? && rt.tryParseGuid(userId).value in store
    requires |ops| > 0
    requires forall i :: 0 <= i < |ops| ==>
               IsFieldWrite(rt.chars, ops[i]) && TargetField(rt.chars, ops[i].path) == Some(Login)
               && ValidLogin(rt.chars, ops[i].value)
    ensures PartiallyUpdateUser(rt, Some(ops), userId, store).status == NoContent
  {
    forall i | 0 <= i < |ops|
      ensures CheckOperation(rt.chars, ops[i]).None?
    {
      ValidLoginPassesPreValidation(rt.chars, ops[i]);
    }
    var id := rt.tryParseGuid(userId).value;
    var d := ToUpdateUserDto(store[id]);
    LastWriteWins(rt.chars, rt.applyOther, d, ops, Login);
    assert LastWrite(rt.chars, ops, Login) == Some(ops[|ops| - 1].value);
    var applied := ApplyTo(rt.chars, rt.applyOther, d, ops);
    assert applied.dto.login == ops[|ops| - 1].value;
    assert UpdateUserDtoErrors(rt.chars, applied.dto) == [];
    PartiallyUpdateUserUnfold(rt, ops, userId, store);
  }

  /** A login made of a digit from another script is accepted by IsAlphaNum, so it passes
      pre-validation, but the attribute pattern only admits ASCII digits: the PATCH ends
      in 422 with the pattern message from post-apply validation. */
  lemma NonAsciiDigitFailsOnlyAfterApply(rt: Runtime, c: char, path: string, userId: string, store: Store)
    requires Wellformed(rt.chars)
    requires rt.chars.isDigit(c) && !rt.chars.isLetter(c) && !IsAsciiDigit(c)
    requires TargetField(rt.chars, Some(path)) == Some(Login)
    requires rt.tryParseGuid(userId).Some? && rt.tryParseGuid(userId).value in store
    ensures IsAlphaNum(rt.chars, [c]) && !MatchesLoginPattern(rt.chars, [c])
    ensures var o := Operation(Replace, Some(path), None, Some([c]));
            && ValidatePatchDocument(rt.chars, [o]).None?
            && PartiallyUpdateUser(rt, Some([o]), userId, store)
               == Reply(UnprocessableEntity, ModelErrors([FieldError(LoginKey, PatternMessage)]), store)
  {
    var o := Operation(Replace, Some(path), None, Some([c]));
    NonAsciiDigitLogin(rt.chars, c);
    assert CheckOperation(rt.chars, o).None?;
    assert ValidatePatchDocument(rt.chars, [o]).None?;
    var id := rt.tryParseGuid(userId).value;
    var d := ToUpdateUserDto(store[id]);
    LastWriteWins(rt.chars, rt.applyOther, d, [o], Login);
    var applied := ApplyTo(rt.chars, rt.applyOther, d, [o]);
    assert applied.dto.login == Some([c]) && applied.errors == [];
    assert applied.errors + UpdateUserDtoErrors(rt.chars, applied.dto) == [FieldError(LoginKey, PatternMessage)];
    PartiallyUpdateUserUnfold(rt, [o], userId, store);
  }

  /** A one-character login that is a digit of another script: IsAlphaNum and pre-validation
      accept it, the attribute pattern does not. */
  lemma NonAsciiDigitLogin(cc: CharClasses, c: char)
    requires Wellformed(cc)
    requires cc.isDigit(c) && !cc.isLetter(c) && !IsAsciiDigit(c)
    ensures IsAlphaNum(cc, [c]) && !MatchesLoginPattern(cc, [c])
    ensures CheckLoginValue(cc, Some([c])).None?
    ensures LoginAttributeErrors(cc, Some([c])) == [FieldError(LoginKey, PatternMessage)]
  {
    assert !InLoginClass(cc, [c][0]);
    assert !cc.isWhiteSpace(c);
    assert RequiredHolds(cc, Some([c]));
  }

  // ---------------------------------------------------------------------------
  // Concrete requests

  /** POST {"login":"abc123"} creates a record with the default names. */
  lemma PostWithDefaultsExample(cc: CharClasses, store: Store, freshId: Guid)
    requires Wellformed(cc)
    requires freshId !in store
    ensures var r := Post(cc, Some(BindCreateUserDto(UserJson(Text("abc123"), Missing, Missing))), store, freshId);
            && r.status == Created && r.body == CreatedAt(freshId)
            && r.store[freshId].firstName == Some("Biba") && r.store[freshId].lastName == Some("Abobov")
  {
  }

  /** PUT {"login":"abc123"}: UpdateUserDto has no defaults, so the absent first name
      binds to null and the body is refused before the id is looked at. */
  lemma PutWithoutNamesExample(rt: Runtime, userId: string, store: Store, freshId: Guid)
    requires Wellformed(rt.chars)
    requires freshId !in store
    ensures BindUpdateUserDto(UserJson(Text("abc123"), Missing, Missing)).firstName.None?
    ensures UpdateUser(rt, Some(BindUpdateUserDto(UserJson(Text("abc123"), Missing, Missing))), userId, store, freshId)
              == Reply(UnprocessableEntity, ModelErrors([FirstNameEmpty]), store)
  {
  }

  /** The path "/login" designates the login field. */
  lemma SlashLoginTargetsLogin(cc: CharClasses)
    ensures TargetField(cc, Some("/login")) == Some(Login)
  {
  }

  /** Paths are compared ignoring case: "/LOGIN" designates the login field. */
  lemma UpperCaseLoginPath(cc: CharClasses)
    requires Wellformed(cc)
    ensures TargetField(cc, Some("/LOGIN")) == Some(Login)
  {
    UpperLoginTrimmed();
    SameIgnoringCase(cc, "LOGIN", "login");
  }

  /** Trimming the slashes of "/LOGIN" leaves "LOGIN", which is "login" up to case. */
  lemma UpperLoginTrimmed()
    ensures NormalizedPath(Some("/LOGIN")) == Some("LOGIN")
    ensures SameUpToAsciiCase("LOGIN", "login")
  {
    assert LeadingEnd("/LOGIN", '/', 0) == 1;
    assert TrailingStart("/LOGIN", '/', 1, 6) == 6;
    assert "/LOGIN"[1..6] == "LOGIN";
    forall i | 0 <= i < 5
      ensures IsAscii("LOGIN"[i]) && IsAscii("login"[i]) && AsciiUpper("LOGIN"[i]) == AsciiUpper("login"[i])
    {
      assert "LOGIN"[i] as int + 32 == "login"[i] as int;
    }
  }

  /** Paths are compared ignoring case: "FirstName" designates the first-name field. */
  lemma MixedCaseFirstNamePath(cc: CharClasses)
    requires Wellformed(cc)
    ensures TargetField(cc, Some("FirstName")) == Some(FirstName)
  {
    FirstNameTrimmed();
    SameIgnoringCase(cc, "FirstName", "firstName");
  }

  /** "FirstName" has no slash to trim and is "firstName" up to case. */
  lemma FirstNameTrimmed()
    ensures NormalizedPath(Some("FirstName")) == Some("FirstName")
    ensures SameUpToAsciiCase("FirstName", "firstName")
  {
    assert LeadingEnd("FirstName", '/', 0) == 0;
    assert TrailingStart("FirstName", '/', 0, 9) == 9;
    assert "FirstName"[0..9] == "FirstName";
    forall i | 0 <= i < 9
      ensures IsAscii("FirstName"[i]) && IsAscii("firstName"[i]) && AsciiUpper("FirstName"[i]) == AsciiUpper("firstName"[i])
    {
      assert i == 0 || "FirstName"[i] == "firstName"[i];
    }
  }

  /** Pre-validation rejects the login "a!b" for its special character. */
  lemma SpecialCharacterRejected(cc: CharClasses, o: Operation)
    requires Wellformed(cc)
    requires o == Operation(Replace, Some("/login"), None, Some("a!b"))
    ensures CheckOperation(cc, o) == Some(PatchLoginSpecial)
  {
    var v := "a!b";
    assert !IsAlphaNum(cc, v) by {
      AsciiClass(cc, v[1]);
    }
    assert !IsNullOrWhiteSpace(cc, Some(v)) by {
      AsciiClass(cc, v[0]);
    }
    SlashLoginTargetsLogin(cc);
  }

  /** How the tables classify an ASCII character. */
  lemma AsciiClass(cc: CharClasses, c: char)
    requires Wellformed(cc)
    requires IsAscii(c)
    ensures IsLetterOrDigit(cc, c) <==> IsAsciiLetter(c) || IsAsciiDigit(c)
    ensures cc.isWhiteSpace(c) <==> IsAsciiWhiteSpace(c)
  {
  }

  /** PATCH replacing the login with "a!b" is refused before anything is applied. */
  lemma PatchSpecialCharacterExample(rt: Runtime, userId: string, store: Store)
    requires Wellformed(rt.chars)
    requires rt.tryParseGuid(userId).Some? && rt.tryParseGuid(userId).value in store
    ensures var o := Operation(Replace, Some("/login"), None, Some("a!b"));
            PartiallyUpdateUser(rt, Some([o]), userId, store)
              == Reply(UnprocessableEntity, ModelErrors([PatchLoginSpecial]), store)
  {
    var o := Operation(Replace, Some("/login"), None, Some("a!b"));
    SpecialCharacterRejected(rt.chars, o);
    assert ValidatePatchDocument(rt.chars, [o]) == Some(PatchLoginSpecial);
  }

  /** DELETE and PATCH treat an id that does not parse as not found; PUT with a valid body
      treats it as a bad request. */
  lemma MalformedIdAsymmetry(rt: Runtime, userId: string, dto: UpdateUserDto, ops: seq<Operation>, store: Store, freshId: Guid)
    requires Wellformed(rt.chars)
    requires rt.tryParseGuid(userId).None?
    requires ValidReplacement(rt.chars, dto)
    requires freshId !in store
    ensures DeleteUser(rt, userId, store).status == NotFound
    ensures PartiallyUpdateUser(rt, Some(ops), userId, store).status == NotFound
    ensures UpdateUser(rt, Some(dto), userId, store, freshId).status == BadRequest
  {
  }
}

=== FILE: domain.dfy ===
/** The stored user record, the store it lives in, and the field copies the object
    mapper performs between records and DTOs (the maps registered in Program.cs). */
module Domain {
  import opened Base
  import opened UserDtos

  /** A 128-bit identifier; 0 is Guid.Empty. */
  newtype Guid = x: int | 0 <= x < 0x1_0000_0000_0000_0000_0000_0000_0000_0000

  /** UserEntity without its Id, which is the record's key in the store. */
  datatype User = User(
    login: Option<string>,
    firstName: Option<string>,
    lastName: Option<string>,
    gamesPlayed: int,
    currentGameId: Option<Guid>)

  /** The user repository's contents. */
  type Store = map<Guid, User>

  /** The read representation. */
  datatype UserDto = UserDto(id: Guid, login: Option<string>, fullName: string, gamesPlayed: int, currentGameId: Option<Guid>)

  /** C# string concatenation reads null as the empty string. */
  function OrEmpty(s: Option<string>): string {
    match s
    case None => ""
    case Some(t) => t
  }

  /** Map<UserDto>(entity): FullName is FirstName + " " + LastName. */
  function ToUserDto(id: Guid, u: User): UserDto {
    UserDto(id, u.login, OrEmpty(u.firstName) + " " + OrEmpty(u.lastName), u.gamesPlayed, u.currentGameId)
  }

  /** Map<UserEntity>(CreateUserDto): a fresh record that has played no games. */
  function NewUser(d: CreateUserDto): User {
    User(d.login, d.firstName, d.lastName, 0, None)
  }

  /** Map(UpdateUserDto, entity): overwrites the three mapped fields of an existing record. */
  function UpdateUserFrom(d: UpdateUserDto, u: User): User {
    u.(login := d.login, firstName := d.firstName, lastName := d.lastName)
  }

  /** Map<UpdateUserDto>(entity) */
  function ToUpdateUserDto(u: User): UpdateUserDto {
    UpdateUserDto(u.login, u.firstName, u.lastName)
  }

  /** Map<CreateUserDto>(UpdateUserDto) */
  function ToCreateUserDto(d: UpdateUserDto): CreateUserDto {
    CreateUserDto(d.login, d.firstName, d.lastName)
  }

  /** Writing a DTO into a record and reading it back yields the DTO; the fields
      the DTO does not carry are kept; reading then writing changes nothing. */
  lemma UpdateMapLaws(d: UpdateUserDto, u: User)
    ensures ToUpdateUserDto(UpdateUserFrom(d, u)) == d
    ensures UpdateUserFrom(d, u).gamesPlayed == u.gamesPlayed
    ensures UpdateUserFrom(d, u).currentGameId == u.currentGameId
    ensures UpdateUserFrom(ToUpdateUserDto(u), u) == u
    ensures UpdateUserFrom(d, UpdateUserFrom(d, u)) == UpdateUserFrom(d, u)
  {
  }

  /** Creating through an UpdateUserDto stores the same login and names. */
  lemma CreateFromUpdateKeepsFields(d: UpdateUserDto)
    ensures ToUpdateUserDto(NewUser(ToCreateUserDto(d))) == d
  {
  }
}

=== FILE: json_patch.dfy ===
/** A JSON Patch document over an UpdateUserDto. An add or replace on one of the three
    DTO fields stores the operand's string rendering in that field (a field is named by
    its path with the slashes trimmed, compared ignoring case); every other operation is
    handed to an abstract step of the patch library that may succeed or report an error. */
module JsonPatch {
  import opened Base
  import opened Unicode
  import opened UserDtos

  datatype OperationType = Add | Remove | Replace | Move | Copy | Test | Invalid

  /** One operation; `value` is the operand as rendered by ToString(), null when absent. */
  datatype Operation = Operation(op: OperationType, path: Option<string>, from: Option<string>, value: Option<string>)

  datatype Field = Login | FirstName | LastName {
    /** The name a patch path is compared with; also the ModelState key of the field's errors. */
    function Name(): string {
      match this
      case Login => "login"
      case FirstName => "firstName"
      case LastName => "lastName"
    }
  }

  /** op.path?.Trim('/') */
  function NormalizedPath(path: Option<string>): Option<string> {
    match path
    case None => None
    case Some(p) => Some(Trim(p, '/'))
  }

  /** The DTO field a path designates, if any. */
  function TargetField(cc: CharClasses, path: Option<string>): (f: Option<Field>)
    ensures f.Some? ==> EqualsIgnoreCase(cc, NormalizedPath(path), f.value.Name())
    ensures f.None? ==> forall g: Field :: !EqualsIgnoreCase(cc, NormalizedPath(path), g.Name())
    ensures path.None? ==> f.None?
  {
    var p := NormalizedPath(path);
    if EqualsIgnoreCase(cc, p, "login") then Some(Login)
    else if EqualsIgnoreCase(cc, p, "firstName") then Some(FirstName)
    else if EqualsIgnoreCase(cc, p, "lastName") then Some(LastName)
    else None
  }

  function Get(d: UpdateUserDto, f: Field): Option<string> {
    match f
    case Login => d.login
    case FirstName => d.firstName
    case LastName => d.lastName
  }

  /** Sets one field and leaves the other two alone. */
  function Set(d: UpdateUserDto, f: Field, v: Option<string>): (e: UpdateUserDto)
    ensures Get(e, f) == v
    ensures forall g :: g != f ==> Get(e, g) == Get(d, g)
  {
    match f
    case Login => d.(login := v)
    case FirstName => d.(firstName := v)
    case LastName => d.(lastName := v)
  }

  /** Two DTOs agreeing on every field are equal. */
  lemma Extensionality(d: UpdateUserDto, e: UpdateUserDto)
    requires forall f: Field :: Get(d, f) == Get(e, f)
    ensures d == e
  {
    assert Get(d, Login) == Get(e, Login);
    assert Get(d, FirstName) == Get(e, FirstName);
    assert Get(d, LastName) == Get(e, LastName);
  }

  /** An add or replace on one of the three fields: the part of the patch library modelled here. */
  predicate IsFieldWrite(cc: CharClasses, o: Operation) {
    (o.op == Add || o.op == Replace) && TargetField(cc, o.path).Some?
  }

  /** Whatever the patch library does with an operation that is not a field write. */
  type OtherStep = (UpdateUserDto, Operation) -> Result<UpdateUserDto, FieldError>

  /** A patched DTO together with the errors reported to ModelState while patching. */
  datatype Applied = Applied(dto: UpdateUserDto, errors: seq<FieldError>)

  function ApplyOperation(cc: CharClasses, other: OtherStep, d: UpdateUserDto, o: Operation): (a: Applied)
    ensures |a.errors| <= 1
    ensures IsFieldWrite(cc, o) ==> a.errors == []
  {
    if IsFieldWrite(cc, o) then
      Applied(Set(d, TargetField(cc, o.path).value, o.value), [])
    else
      match other(d, o)
      case Success(e) => Applied(e, [])
      case Failure(err) => Applied(d, [err])
  }

  /** ApplyTo(dto, ModelState): every operation in order; a failing one is logged and skipped. */
  function ApplyTo(cc: CharClasses, other: OtherStep, d: UpdateUserDto, ops: seq<Operation>): (a: Applied)
    ensures |a.errors| <= |ops|
    decreases |ops|
  {
    if ops == [] then Applied(d, [])
    else
      var before := ApplyTo(cc, other, d, ops[..|ops| - 1]);
      var last := ApplyOperation(cc, other, before.dto, ops[|ops| - 1]);
      Applied(last.dto, before.errors + last.errors)
  }

  /** The value the last write to `f` in `ops` stores, if any operation writes `f`. */
  function LastWrite(cc: CharClasses, ops: seq<Operation>, f: Field): Option<Option<string>>
    decreases |ops|
  {
    if ops == [] then None
    else
      var o := ops[|ops| - 1];
      if IsFieldWrite(cc, o) && TargetField(cc, o.path) == Some(f) then Some(o.value)
      else
        LastWrite(cc, ops[..|ops| - 1], f)
  }

  /** A document of field writes reports no error, and each field ends up holding its
      last written value, or its old value when nothing writes it. */
  lemma {:induction false} LastWriteWins(cc: CharClasses, other: OtherStep, d: UpdateUserDto, ops: seq<Operation>, f: Field)
    requires forall i :: 0 <= i < |ops| ==> IsFieldWrite(cc, ops[i])
    ensures ApplyTo(cc, other, d, ops).errors == []
    ensures Get(ApplyTo(cc, other, d, ops).dto, f) == (match LastWrite(cc, ops, f) case Some(v) => v case None => Get(d, f))
    decreases |ops|
  {
    if ops != [] {
      var init, o := ops[..|ops| - 1], ops[|ops| - 1];
      assert forall i :: 0 <= i < |init| ==> init[i] == ops[i];
      LastWriteWins(cc, other, d, init, f);
      var before := ApplyTo(cc, other, d, init);
      assert IsFieldWrite(cc, o);
      var g := TargetField(cc, o.path).value;
      var step := ApplyOperation(cc, other, before.dto, o);
      assert step == Applied(Set(before.dto, g, o.value), []);
      assert ApplyTo(cc, other, d, ops) == Applied(step.dto, before.errors + step.errors);
      if g == f {
        assert LastWrite(cc, ops, f) == Some(o.value);
      } else {
        assert LastWrite(cc, ops, f) == LastWrite(cc, init, f);
      }
    }
  }

  /** Applying a document of field writes a second time changes nothing. */
  lemma ApplyFieldWritesIdempotent(cc: CharClasses, other: OtherStep, d: UpdateUserDto, ops: seq<Operation>)
    requires forall i :: 0 <= i < |ops| ==> IsFieldWrite(cc, ops[i])
    ensures var once := ApplyTo(cc, other, d, ops).dto;
            ApplyTo(cc, other, once, ops) == Applied(once, [])
  {
    var once := ApplyTo(cc, other, d, ops).dto;
    var twice := ApplyTo(cc, other, once, ops);
    forall f: Field
      ensures Get(twice.dto, f) == Get(once, f)
    {
      LastWriteWins(cc, other, d, ops, f);
      LastWriteWins(cc, other, once, ops, f);
    }
    LastWriteWins(cc, other, once, ops, Login);
    Extensionality(twice.dto, once);
  }
}

=== FILE: pagination.dfy ===
/** The list action GET /: normalises the page request, asks the repository for that
    page, and builds the X-Pagination header. The repository's page (its items, total
    count and previous/next flags) is an input, never recomputed here. */
module Pagination {
  import opened Base
  import opened Domain

  const DefaultPageNumber: int := 1
  const DefaultPageSize: int := 10
  const MaxPageSize: int := 20

  /** What IUserRepository.GetPage returns. */
  datatype PageList = PageList(items: seq<(Guid, User)>, totalCount: int, hasPrevious: bool, hasNext: bool)

  /** A link to the list action, reduced to its query values. */
  datatype PageLink = PageLink(pageNumber: int, pageSize: int)

  datatype PaginationHeader = PaginationHeader(
    previousPageLink: Option<PageLink>,
    nextPageLink: Option<PageLink>,
    totalCount: int,
    pageSize: int,
    currentPage: int,
    totalPages: int)

  /** The 200 response: the mapped users and the pagination header. */
  datatype UsersPage = UsersPage(users: seq<UserDto>, header: PaginationHeader)

  /** Math.Max(1, pageNumber) */
  function NormalizePageNumber(pageNumber: int): (p: int)
    ensures p >= 1
    ensures pageNumber >= 1 ==> p == pageNumber
    ensures pageNumber < 1 ==> p == 1
  {
    if pageNumber < 1 then 1 else pageNumber
  }

  /** Math.Clamp(pageSize, 1, 20) */
  function ClampPageSize(pageSize: int): (s: int)
    ensures 1 <= s <= MaxPageSize
    ensures 1 <= pageSize <= MaxPageSize ==> s == pageSize
    ensures pageSize < 1 ==> s == 1
    ensures pageSize > MaxPageSize ==> s == MaxPageSize
  {
    if pageSize < 1 then 1 else if pageSize > MaxPageSize then MaxPageSize else pageSize
  }

  /** The ceiling of n / d for a positive d: the least q with n <= q * d. */
  function CeilDiv(n: int, d: int): (q: int)
    requires d > 0
    ensures (q - 1) * d < n <= q * d
  {
    var m := -n;
    var fl := m / d;
    assert m == fl * d + m % d && 0 <= m % d < d;
    assert (-fl) * d == -(fl * d);
    -fl
  }

  /** The mapped page of users. */
  function MapUsers(items: seq<(Guid, User)>): (users: seq<UserDto>)
    ensures |users| == |items|
    ensures forall i :: 0 <= i < |items| ==> users[i] == ToUserDto(items[i].0, items[i].1)
  {
    seq(|items|, i requires 0 <= i < |items| => ToUserDto(items[i].0, items[i].1))
  }

  /** The X-Pagination header for a normalised request and the repository's page. */
  function BuildHeader(number: int, size: int, page: PageList): (h: PaginationHeader)
    requires size > 0
    ensures h.currentPage == number && h.pageSize == size && h.totalCount == page.totalCount
    ensures (h.totalPages - 1) * size < page.totalCount <= h.totalPages * size
    ensures h.previousPageLink.Some? <==> page.hasPrevious
    ensures h.nextPageLink.Some? <==> page.hasNext
    ensures page.hasPrevious ==> h.previousPageLink.value == PageLink(number - 1, size)
    ensures page.hasNext ==> h.nextPageLink.value == PageLink(number + 1, size)
  {
    var previous := if page.hasPrevious then Some(PageLink(number - 1, size)) else None;
    var next := if page.hasNext then Some(PageLink(number + 1, size)) else None;
    PaginationHeader(previous, next, page.totalCount, size, number, CeilDiv(page.totalCount, size))
  }

  /** GetUsers: absent query values take their defaults. */
  function GetUsers(pageNumber: Option<int>, pageSize: Option<int>, getPage: (int, int) -> PageList): (r: UsersPage)
    ensures r.header.currentPage >= 1 && 1 <= r.header.pageSize <= MaxPageSize
    ensures pageNumber.None? ==> r.header.currentPage == DefaultPageNumber
    ensures pageSize.None? ==> r.header.pageSize == DefaultPageSize
    ensures pageNumber.Some? ==> r.header.currentPage == NormalizePageNumber(pageNumber.value)
    ensures pageSize.Some? ==> r.header.pageSize == ClampPageSize(pageSize.value)
    ensures pageNumber.Some? && pageNumber.value >= 1 ==> r.header.currentPage == pageNumber.value
    ensures pageSize.Some? && 1 <= pageSize.value <= MaxPageSize ==> r.header.pageSize == pageSize.value
    ensures var page := getPage(r.header.currentPage, r.header.pageSize);
            && r.header.totalCount == page.totalCount
            && (r.header.totalPages - 1) * r.header.pageSize < page.totalCount <= r.header.totalPages * r.header.pageSize
            && (r.header.previousPageLink.Some? <==> page.hasPrevious)
            && (r.header.nextPageLink.Some? <==> page.hasNext)
            && (page.hasPrevious ==> r.header.previousPageLink.value == PageLink(r.header.currentPage - 1, r.header.pageSize))
            && (page.hasNext ==> r.header.nextPageLink.value == PageLink(r.header.currentPage + 1, r.header.pageSize))
            && |r.users| == |page.items|
            && (forall i :: 0 <= i < |page.items| ==> r.users[i] == ToUserDto(page.items[i].0, page.items[i].1))
  {
    var number := NormalizePageNumber(match pageNumber case None => DefaultPageNumber case Some(n) => n);
    var size := ClampPageSize(match pageSize case None => DefaultPageSize case Some(s) => s);
    var page := getPage(number, size);
    UsersPage(MapUsers(page.items), BuildHeader(number, size, page))
  }

  /** A page-0, size-999 request over 25 records reads page 1 of 2 pages of 20. */
  lemma OutOfRangeRequestExample(getPage: (int, int) -> PageList)
    requires getPage(1, 20).totalCount == 25
    ensures var h := GetUsers(Some(0), Some(999), getPage).header;
            h.currentPage == 1 && h.pageSize == 20 && h.totalPages == 2
  {
    var h := GetUsers(Some(0), Some(999), getPage).header;
    assert (h.totalPages - 1) * 20 < 25 <= h.totalPages * 20;
  }
}

=== FILE: unicode.dfy ===
/** The parts of the .NET string and character library the controller relies on.
    The Unicode tables themselves are not reproduced: a `CharClasses` value supplies
    them, and `Wellformed` pins down what is fixed by the standard for ASCII (the
    classes and the upper-case mapping) and the one cross-class fact the validators need. Characters stand for UTF-16 code units. */
module Unicode {
  import opened Base

  datatype CharClasses = CharClasses(
    isLetter: char -> bool,         // char.IsLetter: general categories Lu, Ll, Lt, Lm, Lo (regex \p{L})
    isDigit: char -> bool,          // char.IsDigit: general category Nd (any script)
    isWhiteSpace: char -> bool,     // char.IsWhiteSpace
    toUpperInvariant: char -> char  // the simple upper-case mapping used by ordinal-ignore-case comparison
  )

  predicate IsAscii(c: char) { c as int < 0x80 }

  predicate IsAsciiDigit(c: char) { '0' <= c <= '9' }

  predicate IsAsciiLetter(c: char) { 'a' <= c <= 'z' || 'A' <= c <= 'Z' }

  predicate IsAsciiWhiteSpace(c: char) { c == ' ' || '\t' <= c <= '\r' }

  /** What every classification table the runtime ships agrees on. */
  ghost predicate Wellformed(cc: CharClasses) {
    && (forall c :: IsAscii(c) ==> (cc.isLetter(c) <==> IsAsciiLetter(c)))
    && (forall c :: IsAscii(c) ==> (cc.isDigit(c) <==> IsAsciiDigit(c)))
    && (forall c :: IsAscii(c) ==> (cc.isWhiteSpace(c) <==> IsAsciiWhiteSpace(c)))
    && (forall c :: cc.isWhiteSpace(c) ==> !cc.isLetter(c) && !cc.isDigit(c))
    && (forall c :: IsAscii(c) ==> cc.toUpperInvariant(c) == AsciiUpper(c))
  }

  /** The upper-case mapping of an ASCII character: a-z become A-Z, the rest are kept. */
  function AsciiUpper(c: char): (u: char)
    requires IsAscii(c)
    ensures IsAscii(u)
    ensures 'a' <= c <= 'z' ==> 'A' <= u <= 'Z' && u as int == c as int - 32
    ensures !('a' <= c <= 'z') ==> u == c
  {
    if 'a' <= c <= 'z' then (c as int - 32) as char else c
  }

  /** char.IsLetterOrDigit */
  predicate IsLetterOrDigit(cc: CharClasses, c: char) {
    cc.isLetter(c) || cc.isDigit(c)
  }

  /** string.IsNullOrEmpty */
  predicate IsNullOrEmpty(s: Option<string>) {
    s.None? || |s.value| == 0
  }

  /** string.IsNullOrWhiteSpace: null, empty, or white space only */
  predicate IsNullOrWhiteSpace(cc: CharClasses, s: Option<string>) {
    s.None? || forall i :: 0 <= i < |s.value| ==> cc.isWhiteSpace(s.value[i])
  }

  /** Two strings of ASCII characters that agree once their letters are upper-cased. */
  predicate SameUpToAsciiCase(a: string, b: string) {
    && |a| == |b|
    && forall i :: 0 <= i < |a| ==> IsAscii(a[i]) && IsAscii(b[i]) && AsciiUpper(a[i]) == AsciiUpper(b[i])
  }

  /** string.Equals(a, b, StringComparison.OrdinalIgnoreCase) with a possibly null left side */
  predicate EqualsIgnoreCase(cc: CharClasses, a: Option<string>, b: string) {
    && a.Some?
    && |a.value| == |b|
    && forall i :: 0 <= i < |b| ==> cc.toUpperInvariant(a.value[i]) == cc.toUpperInvariant(b[i])
  }

  /** Ordinal-ignore-case comparison agrees with ASCII upper-casing on ASCII strings. */
  lemma SameIgnoringCase(cc: CharClasses, a: string, b: string)
    requires Wellformed(cc)
    requires SameUpToAsciiCase(a, b)
    ensures EqualsIgnoreCase(cc, Some(a), b)
  {
  }

  /** Where the text after the leading run of `ch` starts, scanning from `i`. */
  function LeadingEnd(s: string, ch: char, i: nat): (n: nat)
    requires i <= |s|
    requires forall k :: 0 <= k < i ==> s[k] == ch
    ensures i <= n <= |s|
    ensures forall k :: 0 <= k < n ==> s[k] == ch
    ensures n == |s| || s[n] != ch
    decreases |s| - i
  {
    if i < |s| && s[i] == ch then LeadingEnd(s, ch, i + 1) else i
  }

  /** Where the trailing run of `ch` starts, scanning down from `j` but not below `lo`. */
  function TrailingStart(s: string, ch: char, lo: nat, j: nat): (m: nat)
    requires lo <= j <= |s|
    requires forall k :: j <= k < |s| ==> s[k] == ch
    ensures lo <= m <= j
    ensures forall k :: m <= k < |s| ==> s[k] == ch
    ensures m == lo || s[m - 1] != ch
    decreases j - lo
  {
    if j > lo && s[j - 1] == ch then TrailingStart(s, ch, lo, j - 1) else j
  }

  /** string.Trim(char): the longest middle slice that neither starts nor ends with `ch`,
      everything cut off being `ch`. */
  function Trim(s: string, ch: char): (r: string)
    ensures exists i, j :: 0 <= i <= j <= |s| && r == s[i..j]
                           && (forall k :: 0 <= k < i ==> s[k] == ch)
                           && (forall k :: j <= k < |s| ==> s[k] == ch)
    ensures r == [] || (r[0] != ch && r[|r| - 1] != ch)
  {
    var i := LeadingEnd(s, ch, 0);
    var j := TrailingStart(s, ch, i, |s|);
    s[i..j]
  }
}

=== FILE: user_dto.dfy ===
/** The request shapes of the users resource (Models/UserDto.cs), how they are bound
    from a JSON body, and what their validation attributes demand. */
module UserDtos {
  import opened Base
  import opened Unicode

  /** One ModelState entry: the key it is filed under and its message. */
  datatype FieldError = FieldError(key: string, message: string)

  datatype CreateUserDto = CreateUserDto(login: Option<string>, firstName: Option<string>, lastName: Option<string>)

  datatype UpdateUserDto = UpdateUserDto(login: Option<string>, firstName: Option<string>, lastName: Option<string>)

  /** [DefaultValue] of CreateUserDto.FirstName and CreateUserDto.LastName. */
  const DefaultFirstName: string := "Biba"
  const DefaultLastName: string := "Abobov"

  /** ModelState key and messages of the attributes on Login. */
  const LoginKey: string := "Login"
  const RequiredMessage: string := "The Login field is required."
  const PatternMessage: string := "Login should contain only letters or digits"

  // ---------------------------------------------------------------------------
  // Binding from a JSON body

  /** A member of the JSON object: absent, an explicit null, or a string. */
  datatype JsonMember = Missing | Null | Text(text: string)

  datatype UserJson = UserJson(login: JsonMember, firstName: JsonMember, lastName: JsonMember)

  /** Deserialisation with DefaultValueHandling.Populate: only an absent member takes the default. */
  function Populate(m: JsonMember, default: Option<string>): Option<string> {
    match m
    case Missing => default
    case Null => None
    case Text(s) => Some(s)
  }

  function BindCreateUserDto(json: UserJson): CreateUserDto {
    CreateUserDto(Populate(json.login, None),
                  Populate(json.firstName, Some(DefaultFirstName)),
                  Populate(json.lastName, Some(DefaultLastName)))
  }

  function BindUpdateUserDto(json: UserJson): UpdateUserDto {
    UpdateUserDto(Populate(json.login, None), Populate(json.firstName, None), Populate(json.lastName, None))
  }

  /** How a DTO is written out as JSON: every member present, null where the field is null. */
  function Member(v: Option<string>): JsonMember {
    match v
    case None => Null
    case Some(s) => Text(s)
  }

  function CreateUserJson(d: CreateUserDto): UserJson {
    UserJson(Member(d.login), Member(d.firstName), Member(d.lastName))
  }

  /** The defaults fill exactly the absent members and never override a present one. */
  lemma CreateDefaults(json: UserJson)
    ensures json.firstName.Missing? ==> BindCreateUserDto(json).firstName == Some("Biba")
    ensures json.lastName.Missing? ==> BindCreateUserDto(json).lastName == Some("Abobov")
    ensures json.firstName.Text? ==> BindCreateUserDto(json).firstName == Some(json.firstName.text)
    ensures json.lastName.Text? ==> BindCreateUserDto(json).lastName == Some(json.lastName.text)
    ensures BindCreateUserDto(json).login.Some? <==> json.login.Text?
  {
  }

  /** Binding inverts serialisation: a written-out DTO is read back unchanged. */
  lemma CreateBindRoundTrip(d: CreateUserDto)
    ensures BindCreateUserDto(CreateUserJson(d)) == d
  {
  }

  // ---------------------------------------------------------------------------
  // Validation attributes on Login

  /** The character class of the pattern ^[0-9\p{L}]*$: an ASCII digit or a Unicode letter. */
  predicate InLoginClass(cc: CharClasses, c: char) {
    IsAsciiDigit(c) || cc.isLetter(c)
  }

  /** The pattern matches the whole string. */
  predicate MatchesLoginPattern(cc: CharClasses, s: string) {
    forall i :: 0 <= i < |s| ==> InLoginClass(cc, s[i])
  }

  /** [Required] on a string (AllowEmptyStrings is false). */
  predicate RequiredHolds(cc: CharClasses, v: Option<string>) {
    !IsNullOrWhiteSpace(cc, v)
  }

  /** [RegularExpression]: null and the empty string pass; anything else must match in full. */
  predicate RegularExpressionHolds(cc: CharClasses, v: Option<string>) {
    v.None? || v.value == "" || MatchesLoginPattern(cc, v.value)
  }

  /** The login rule the two attributes implement together. */
  predicate ValidLogin(cc: CharClasses, v: Option<string>) {
    v.Some? && |v.value| > 0 && MatchesLoginPattern(cc, v.value)
  }

  /** The ModelState entries produced by validating Login: [Required] first, then the pattern. */
  function LoginAttributeErrors(cc: CharClasses, v: Option<string>): (errors: seq<FieldError>)
    requires Wellformed(cc)
    ensures errors == [] <==> ValidLogin(cc, v)
    ensures forall e :: e in errors ==> e.key == LoginKey
    ensures IsNullOrEmpty(v) ==> errors == [FieldError(LoginKey, RequiredMessage)]
    ensures !IsNullOrWhiteSpace(cc, v) && !ValidLogin(cc, v) ==> errors == [FieldError(LoginKey, PatternMessage)]
    ensures !IsNullOrEmpty(v) && IsNullOrWhiteSpace(cc, v) ==>
              errors == [FieldError(LoginKey, RequiredMessage), FieldError(LoginKey, PatternMessage)]
  {
    // a valid login starts with a letter or digit, which is not white space
    assert ValidLogin(cc, v) ==> RequiredHolds(cc, v) by {
      if ValidLogin(cc, v) {
        assert !cc.isWhiteSpace(v.value[0]);
      }
    }
    if !RequiredHolds(cc, v) then
      [FieldError(LoginKey, RequiredMessage)]
        + (if RegularExpressionHolds(cc, v) then [] else [FieldError(LoginKey, PatternMessage)])
    else
      if RegularExpressionHolds(cc, v) then [] else [FieldError(LoginKey, PatternMessage)]
  }

  /** Attribute validation of a CreateUserDto: only Login carries attributes. */
  function CreateUserDtoErrors(cc: CharClasses, d: CreateUserDto): (errors: seq<FieldError>)
    requires Wellformed(cc)
    ensures errors == [] <==> ValidLogin(cc, d.login)
  {
    LoginAttributeErrors(cc, d.login)
  }

  /** Attribute validation of an UpdateUserDto: FirstName and LastName carry none. */
  function UpdateUserDtoErrors(cc: CharClasses, d: UpdateUserDto): (errors: seq<FieldError>)
    requires Wellformed(cc)
    ensures errors == [] <==> ValidLogin(cc, d.login)
  {
    LoginAttributeErrors(cc, d.login)
  }

  /** Attribute validation of an UpdateUserDto looks at Login alone. */
  lemma UpdateValidationIgnoresNames(cc: CharClasses, d: UpdateUserDto, e: UpdateUserDto)
    requires Wellformed(cc)
    requires d.login == e.login
    ensures UpdateUserDtoErrors(cc, d) == UpdateUserDtoErrors(cc, e)
  {
  }

  /** What a full replacement demands: a valid login and non-blank first and last names. */
  predicate ValidReplacement(cc: CharClasses, d: UpdateUserDto) {
    && ValidLogin(cc, d.login)
    && !IsNullOrWhiteSpace(cc, d.firstName)
    && !IsNullOrWhiteSpace(cc, d.lastName)
  }
}

=== FILE: users_controller.dfy ===
/** The decision logic of UsersController: each action is a pure function of its
    inputs and the repository's contents, returning the status, the body and the
    repository's contents afterwards. */
module UsersController {
  import opened Base
  import opened Unicode
  import opened UserDtos
  import opened Domain
  import opened JsonPatch

  datatype Status = Ok | Created | NoContent | BadRequest | NotFound | UnprocessableEntity {
    function Code(): int {
      match this
      case Ok => 200
      case Created => 201
      case NoContent => 204
      case BadRequest => 400
      case NotFound => 404
      case UnprocessableEntity => 422
    }

    predicate IsError() { Code() >= 400 }
  }

  /** What the response carries: nothing, the ModelState entries, the id of a created
      record (also routed into the Location header via GetUserById), or a user. */
  datatype Body = NoBody | ModelErrors(errors: seq<FieldError>) | CreatedAt(id: Guid) | Found(user: UserDto)

  datatype Reply = Reply(status: Status, body: Body, store: Store)

  /** The collaborators the controller calls but whose code is not modelled. */
  datatype Runtime = Runtime(
    chars: CharClasses,                  // the runtime's character tables
    tryParseGuid: string -> Option<Guid>, // Guid.TryParse
    applyOther: OtherStep)               // the patch library on anything but a field write

  /** The entry AddModelError("login", "Error") puts in front of POST's 422. */
  const EmptyLoginError := FieldError("login", "Error")
  const FirstNameEmpty := FieldError("firstName", "First name cannot be empty.")
  const LastNameEmpty := FieldError("lastName", "Last name cannot be empty.")
  const PatchLoginEmpty := FieldError("login", "Login cannot be empty.")
  const PatchLoginSpecial := FieldError("login", "Login must not contain special characters.")

  // ---------------------------------------------------------------------------
  // GET /{id} and HEAD /{id}

  function GetUserById(id: Guid, store: Store): (r: Reply)
    ensures r.store == store
    ensures r.status == Ok <==> id in store
    ensures r.status != Ok ==> r.status == NotFound && r.body == NoBody
    ensures r.status == Ok ==> r.body == Found(ToUserDto(id, store[id]))
  {
    if id !in store then Reply(NotFound, NoBody, store)
    else Reply(Ok, Found(ToUserDto(id, store[id])), store)
  }

  /** The body is suppressed whatever the outcome. */
  function HeadUser(id: Guid, store: Store): (r: Reply)
    ensures r.store == store && r.body == NoBody
    ensures r.status == Ok <==> id in store
    ensures r.status == NotFound <==> id !in store
  {
    Reply(if id in store then Ok else NotFound, NoBody, store)
  }

  // ---------------------------------------------------------------------------
  // POST /

  /** The action: `modelState` holds what binding and validation left in ModelState, and
      `freshId` is the new id the repository's Insert assigns, one not yet stored. */
  function CreateUser(dto: Option<CreateUserDto>, modelState: seq<FieldError>, store: Store, freshId: Guid): (r: Reply)
    requires freshId !in store
    ensures r.status in {BadRequest, UnprocessableEntity, Created}
    ensures r.status == BadRequest <==> dto.None?
    ensures r.status == BadRequest ==> r.body == NoBody
    ensures r.status == Created <==> dto.Some? && !IsNullOrEmpty(dto.value.login) && modelState == []
    ensures dto.Some? && IsNullOrEmpty(dto.value.login) ==> r.body == ModelErrors(modelState + [EmptyLoginError])
    ensures dto.Some? && !IsNullOrEmpty(dto.value.login) && modelState != [] ==> r.body == ModelErrors(modelState)
    ensures r.status.IsError() ==> r.store == store
    ensures r.status == Created ==>
              && dto.Some? && !IsNullOrEmpty(dto.value.login) && modelState == []
              && r.body == CreatedAt(freshId)
              && r.store.Keys == store.Keys + {freshId}
              && r.store[freshId] == NewUser(dto.value)
              && (forall k :: k in store ==> r.store[k] == store[k])
              && |r.store| == |store| + 1
  {
    if dto.None? then
      Reply(BadRequest, NoBody, store)
    else if IsNullOrEmpty(dto.value.login) then
      Reply(UnprocessableEntity, ModelErrors(modelState + [EmptyLoginError]), store)
    else if modelState != [] then
      Reply(UnprocessableEntity, ModelErrors(modelState), store)
    else
      Reply(Created, CreatedAt(freshId), store[freshId := NewUser(dto.value)])
  }

  /** A POST as it reaches the action: ModelState holds the attribute errors of the bound DTO. */
  function Post(cc: CharClasses, dto: Option<CreateUserDto>, store: Store, freshId: Guid): (r: Reply)
    requires Wellformed(cc)
    requires freshId !in store
    ensures r.status == BadRequest <==> dto.None?
    ensures r.status == Created <==> dto.Some? && ValidLogin(cc, dto.value.login)
    ensures r.status == UnprocessableEntity <==> dto.Some? && !ValidLogin(cc, dto.value.login)
    ensures r.status.IsError() ==> r.store == store
    ensures r.status == BadRequest ==> r.body == NoBody
    ensures dto.Some? && IsNullOrEmpty(dto.value.login) ==>
              r.body == ModelErrors([FieldError(LoginKey, RequiredMessage), EmptyLoginError])
    ensures dto.Some? && !IsNullOrEmpty(dto.value.login) && !ValidLogin(cc, dto.value.login) ==>
              r.body == ModelErrors(CreateUserDtoErrors(cc, dto.value))
    ensures r.status == Created ==> freshId in r.store && ValidLogin(cc, r.store[freshId].login) && r.store[freshId].gamesPlayed == 0
  {
    var modelState := if dto.Some? then CreateUserDtoErrors(cc, dto.value) else [];
    CreateUser(dto, modelState, store, freshId)
  }

  // ---------------------------------------------------------------------------
  // PUT /{id}

  /** ValidateUserDto: an invalid ModelState first, then a blank first name, then a blank
      last name; the error list to answer 422 with, or None when the body is acceptable. */
  function ValidateUserDto(cc: CharClasses, d: UpdateUserDto, modelState: seq<FieldError>): (r: Option<seq<FieldError>>)
    ensures r.None? <==> modelState == [] && !IsNullOrWhiteSpace(cc, d.firstName) && !IsNullOrWhiteSpace(cc, d.lastName)
    ensures modelState != [] ==> r == Some(modelState)
    ensures modelState == [] && r.Some? ==>
              r.value == [if IsNullOrWhiteSpace(cc, d.firstName) then FirstNameEmpty else LastNameEmpty]
  {
    if modelState != [] then Some(modelState)
    else if IsNullOrWhiteSpace(cc, d.firstName) then Some(modelState + [FirstNameEmpty])
    else if IsNullOrWhiteSpace(cc, d.lastName) then Some(modelState + [LastNameEmpty])
    else None
  }

  /** A PUT: the body is checked before the id is parsed, and an unknown id creates a record. */
  function UpdateUser(rt: Runtime, dto: Option<UpdateUserDto>, userId: string, store: Store, freshId: Guid): (r: Reply)
    requires Wellformed(rt.chars)
    requires freshId !in store
    ensures r.status != NotFound && r.status != Ok
    ensures r.status in {BadRequest, NoContent} ==> r.body == NoBody
    ensures r.status == UnprocessableEntity <==> dto.Some? && !ValidReplacement(rt.chars, dto.value)
    ensures r.status == BadRequest <==>
              dto.None? || (ValidReplacement(rt.chars, dto.value) && rt.tryParseGuid(userId).None?)
    ensures r.status == Created <==>
              && dto.Some? && ValidReplacement(rt.chars, dto.value)
              && rt.tryParseGuid(userId).Some? && rt.tryParseGuid(userId).value !in store
    ensures r.status == NoContent <==>
              && dto.Some? && ValidReplacement(rt.chars, dto.value)
              && rt.tryParseGuid(userId).Some? && rt.tryParseGuid(userId).value in store
    ensures r.status.IsError() ==> r.store == store
    ensures r.status == NoContent ==>
              var id := rt.tryParseGuid(userId).value;
              && r.store.Keys == store.Keys
              && ToUpdateUserDto(r.store[id]) == dto.value
              && r.store[id].gamesPlayed == store[id].gamesPlayed
              && r.store[id].currentGameId == store[id].currentGameId
              && (forall k :: k in store && k != id ==> r.store[k] == store[k])
    ensures r.status == Created ==>
              && r.body == CreatedAt(freshId) && r.store.Keys == store.Keys + {freshId}
              && ToUpdateUserDto(r.store[freshId]) == dto.value
              && (forall k :: k in store ==> r.store[k] == store[k])
    ensures r.status == UnprocessableEntity && ValidLogin(rt.chars, dto.value.login) ==>
              r.body.ModelErrors? && |r.body.errors| == 1
    ensures dto.Some? && r.status == UnprocessableEntity ==>
              r.body == ModelErrors(ValidateUserDto(rt.chars, dto.value, UpdateUserDtoErrors(rt.chars, dto.value)).value)
  {
    if dto.None? then
      Reply(BadRequest, NoBody, store)
    else
      var modelState := UpdateUserDtoErrors(rt.chars, dto.value);
      match ValidateUserDto(rt.chars, dto.value, modelState)
      case Some(errors) => Reply(UnprocessableEntity, ModelErrors(errors), store)
      case None =>
        match rt.tryParseGuid(userId)
        case None => Reply(BadRequest, NoBody, store)
        case Some(id) =>
          if id !in store then
            CreateUser(Some(ToCreateUserDto(dto.value)), modelState, store, freshId)
          else
            Reply(NoContent, NoBody, store[id := UpdateUserFrom(dto.value, store[id])])
  }

  // ---------------------------------------------------------------------------
  // PATCH /{id}

  /** IsAlphaNum: every character is a letter or a digit of any script. */
  function IsAlphaNum(cc: CharClasses, s: string): (r: bool)
    ensures r <==> forall i :: 0 <= i < |s| ==> IsLetterOrDigit(cc, s[i])
    decreases |s|
  {
    if s == [] then true
    else if !IsLetterOrDigit(cc, s[0]) then false
    else IsAlphaNum(cc, s[1..])
  }

  /** Every login the attribute pattern accepts, IsAlphaNum accepts too. */
  lemma PatternImpliesAlphaNum(cc: CharClasses, s: string)
    requires Wellformed(cc)
    requires MatchesLoginPattern(cc, s)
    ensures IsAlphaNum(cc, s)
  {
    forall i | 0 <= i < |s|
      ensures IsLetterOrDigit(cc, s[i])
    {
      assert InLoginClass(cc, s[i]);
    }
  }

  /** The pre-validation check of a login value: a null value reads as "". */
  function CheckLoginValue(cc: CharClasses, v: Option<string>): (r: Option<FieldError>)
    ensures r == Some(PatchLoginEmpty) <==> IsNullOrWhiteSpace(cc, v)
    ensures r == Some(PatchLoginSpecial) <==> !IsNullOrWhiteSpace(cc, v) && !IsAlphaNum(cc, v.value)
    ensures r.None? <==> !IsNullOrWhiteSpace(cc, v) && IsAlphaNum(cc, v.value)
  {
    var value := if v.Some? then v.value else "";
    if IsNullOrWhiteSpace(cc, Some(value)) then Some(PatchLoginEmpty)
    else if !IsAlphaNum(cc, value) then Some(PatchLoginSpecial)
    else None
  }

  /** The pre-validation check of one operation; the operation type is never looked at. */
  function CheckOperation(cc: CharClasses, o: Operation): (r: Option<FieldError>)
    ensures TargetField(cc, o.path).None? ==> r.None?
    ensures r.Some? ==> r.value.key == TargetField(cc, o.path).value.Name()
    ensures TargetField(cc, o.path) == Some(Login) ==> r == CheckLoginValue(cc, o.value)
    ensures TargetField(cc, o.path) == Some(FirstName) && r.Some? ==> r.value == FirstNameEmpty
    ensures TargetField(cc, o.path) == Some(LastName) && r.Some? ==> r.value == LastNameEmpty
    ensures TargetField(cc, o.path) == Some(FirstName) || TargetField(cc, o.path) == Some(LastName) ==>
              (r.None? <==> !IsNullOrWhiteSpace(cc, o.value))
  {
    match TargetField(cc, o.path)
    case None => None
    case Some(Login) => CheckLoginValue(cc, o.value)
    case Some(FirstName) =>
      if IsNullOrWhiteSpace(cc, o.value) then Some(FirstNameEmpty) else None
    case Some(LastName) =>
      if IsNullOrWhiteSpace(cc, o.value) then Some(LastNameEmpty) else None
  }

  /** ValidatePatchDocument: the error of the first operation that fails its check. */
  function ValidatePatchDocument(cc: CharClasses, ops: seq<Operation>): (r: Option<FieldError>)
    ensures r.None? <==> forall i :: 0 <= i < |ops| ==> CheckOperation(cc, ops[i]).None?
    ensures r.Some? ==> exists i :: 0 <= i < |ops| && CheckOperation(cc, ops[i]) == r
                                    && forall j :: 0 <= j < i ==> CheckOperation(cc, ops[j]).None?
    decreases |ops|
  {
    if ops == [] then None
    else
      match CheckOperation(cc, ops[0])
      case Some(e) => Some(e)
      case None =>
        var r := ValidatePatchDocument(cc, ops[1..]);
        FirstFailureAfterPassingHead(o => CheckOperation(cc, o), ops, r);
        r
  }

  /** When the first item passes `check`, the first failure among the rest is the first
      failure of the whole sequence. */
  lemma FirstFailureAfterPassingHead<T>(check: T -> Option<FieldError>, xs: seq<T>, r: Option<FieldError>)
    requires xs != [] && check(xs[0]).None?
    requires r.None? <==> forall i :: 0 <= i < |xs| - 1 ==> check(xs[1..][i]).None?
    requires r.Some? ==> exists i :: 0 <= i < |xs| - 1 && check(xs[1..][i]) == r
                                     && forall j :: 0 <= j < i ==> check(xs[1..][j]).None?
    ensures r.None? <==> forall i :: 0 <= i < |xs| ==> check(xs[i]).None?
    ensures r.Some? ==> exists i :: 0 <= i < |xs| && check(xs[i]) == r
                                    && forall j :: 0 <= j < i ==> check(xs[j]).None?
  {
    assert forall i :: 0 < i < |xs| ==> xs[1..][i - 1] == xs[i];
    if r.Some? {
      var k :| 0 <= k < |xs| - 1 && check(xs[1..][k]) == r
               && forall j :: 0 <= j < k ==> check(xs[1..][j]).None?;
      assert check(xs[k + 1]) == r;
    }
  }

  /** A PATCH: a missing document is a bad request, a bad or unknown id is not found, the
      document is pre-validated only once the record is found, and after applying it only
      the attributes of UpdateUserDto are checked. */
  function PartiallyUpdateUser(rt: Runtime, patchDoc: Option<seq<Operation>>, userId: string, store: Store): (r: Reply)
    requires Wellformed(rt.chars)
    ensures r.status in {BadRequest, NotFound, UnprocessableEntity, NoContent}
    ensures r.status == BadRequest <==> patchDoc.None?
    ensures r.status in {BadRequest, NotFound, NoContent} ==> r.body == NoBody
    ensures r.status == NotFound <==>
              patchDoc.Some? && (rt.tryParseGuid(userId).None? || rt.tryParseGuid(userId).value !in store)
    ensures r.status.IsError() ==> r.store == store
    ensures patchDoc.Some? && rt.tryParseGuid(userId).Some? && rt.tryParseGuid(userId).value in store
            && ValidatePatchDocument(rt.chars, patchDoc.value).Some? ==>
              r == Reply(UnprocessableEntity, ModelErrors([ValidatePatchDocument(rt.chars, patchDoc.value).value]), store)
    ensures patchDoc.Some? && rt.tryParseGuid(userId).Some? && rt.tryParseGuid(userId).value in store
            && ValidatePatchDocument(rt.chars, patchDoc.value).None? ==>
              var id := rt.tryParseGuid(userId).value;
              var applied := ApplyTo(rt.chars, rt.applyOther, ToUpdateUserDto(store[id]), patchDoc.value);
              && r.status in {UnprocessableEntity, NoContent}
              && (r.status == NoContent <==> applied.errors == [] && ValidLogin(rt.chars, applied.dto.login))
              && (r.status == UnprocessableEntity ==>
                    r.body == ModelErrors(applied.errors + UpdateUserDtoErrors(rt.chars, applied.dto)))
              && (r.status == NoContent ==> id in r.store && ToUpdateUserDto(r.store[id]) == applied.dto)
    ensures r.status == NoContent ==>
              var id := rt.tryParseGuid(userId).value;
              && ValidatePatchDocument(rt.chars, patchDoc.value).None?
              && r.store.Keys == store.Keys
              && ValidLogin(rt.chars, r.store[id].login)
              && r.store[id].gamesPlayed == store[id].gamesPlayed
              && r.store[id].currentGameId == store[id].currentGameId
              && (forall k :: k in store && k != id ==> r.store[k] == store[k])
  {
    if patchDoc.None? then
      Reply(BadRequest, NoBody, store)
    else
      match rt.tryParseGuid(userId)
      case None => Reply(NotFound, NoBody, store)
      case Some(id) =>
        if id !in store then
          Reply(NotFound, NoBody, store)
        else
          var dtoToPatch := ToUpdateUserDto(store[id]);
          match ValidatePatchDocument(rt.chars, patchDoc.value)
          case Some(e) => Reply(UnprocessableEntity, ModelErrors([e]), store)
          case None =>
            var applied := ApplyTo(rt.chars, rt.applyOther, dtoToPatch, patchDoc.value);
            var modelState := applied.errors + UpdateUserDtoErrors(rt.chars, applied.dto);
            if modelState != [] then
              Reply(UnprocessableEntity, ModelErrors(modelState), store)
            else
              Reply(NoContent, NoBody, store[id := UpdateUserFrom(applied.dto, store[id])])
  }

  /** Unfolds PartiallyUpdateUser for a found record whose document passes pre-validation,
      so that proofs about a PATCH can rewrite with it. */
  lemma PartiallyUpdateUserUnfold(rt: Runtime, ops: seq<Operation>, userId: string, store: Store)
    requires Wellformed(rt.chars)
    requires rt.tryParseGuid(userId).Some? && rt.tryParseGuid(userId).value in store
    requires ValidatePatchDocument(rt.chars, ops).None?
    ensures var id := rt.tryParseGuid(userId).value;
            var applied := ApplyTo(rt.chars, rt.applyOther, ToUpdateUserDto(store[id]), ops);
            var modelState := applied.errors + UpdateUserDtoErrors(rt.chars, applied.dto);
            PartiallyUpdateUser(rt, Some(ops), userId, store)
              == if modelState != [] then Reply(UnprocessableEntity, ModelErrors(modelState), store)
                 else Reply(NoContent, NoBody, store[id := UpdateUserFrom(applied.dto, store[id])])
  {
  }

  // ---------------------------------------------------------------------------
  // DELETE /{id}

  function DeleteUser(rt: Runtime, userId: string, store: Store): (r: Reply)
    ensures r.body == NoBody
    ensures r.status == NoContent <==> rt.tryParseGuid(userId).Some? && rt.tryParseGuid(userId).value in store
    ensures r.status != NoContent ==> r.status == NotFound && r.store == store
    ensures r.status == NoContent ==>
              var id := rt.tryParseGuid(userId).value;
              && r.store.Keys == store.Keys - {id}
              && (forall k :: k in r.store ==> r.store[k] == store[k])
  {
    match rt.tryParseGuid(userId)
    case None => Reply(NotFound, NoBody, store)
    case Some(id) =>
      if id !in store then Reply(NotFound, NoBody, store)
      else Reply(NoContent, NoBody, store - {id})
  }
}
